=== FILE: README.md ===
# ErrorMonitor — a Dafny model

This project models the browser error monitor `ErrorMonitor`
(`src/utils/ErrorMonitor/errorMonitor.ts`). The monitor captures JavaScript,
promise, resource and React errors into a queue. It drops repeats by
fingerprint and can attach the last recorded screen events. Reports go out in
one of four ways:

- `request`: batched POSTs behind a 3-second timer;
- `image`: one tracking pixel per record;
- `navigator`: one `sendBeacon` per record;
- `custom`: a caller-supplied callback.

The queue is persisted to the `errorQueue` slot of `localStorage` when
reporting is off or fails. The monitor reloads that slot at construction and
flushes the queue when the page is hidden or unloaded.

The model is a pure state machine:

- `ErrorMonitor.Monitor` holds the merged configuration, the queue, the fingerprint cache and the screen buffer.
- It also holds the `timer` field, the number of timeouts still pending (`live`), the batches whose `fetch` has not settled (`inFlight`), the durable slot (`store`) and a `trace` of every outgoing report, in order.
- Every callback of the source is one function from a state to a `Step`.
- A `Step` is the next state plus how the JavaScript call ended: it returned, an exception escaped, or the immediate-report loop was still running when the supplied beacon results ran out.
- The browser's answers are parameters: the current time, `navigator.onLine`, each `sendBeacon` result, and each fetch outcome.
- `Session.Run` delivers any sequence of events: recorder emits, captures, manual reports, timeouts firing, requests settling, page hides.

Modules:

- `Types` — error records, report methods, outgoing reports, the durable slot.
- `Configuration` — the options object and its merge with the defaults.
- `Fingerprints` — `createHash`.
- `ScreenBuffer` — the bounded rrweb event buffer.
- `Persistence` — `saveToLocalStorage` / `loadFromLocalStorage` on the slot.
- `ErrorMonitor` — the class: construction, capture, dispatch, the timer, batching, beacons, flushing.
- `Reporting` — what the reporting paths deliver, proved by induction over the loop.
- `Session` — whole sessions of events and the state invariant.
- `Scenarios` — end-to-end consequences: deduplication, image sessions, the offline window, persistence-only mode, reload.

The model follows the code wherever the code's behaviour is surprising:

- A failed batch POST persists the whole queue. It does not leave the slot unchanged.
- Persisting always appends the whole queue to what the slot holds, so records can be stored several times.
- Two batches that fail in the order they were sent re-enter the queue in the opposite order. If they fail in reverse order, the original order is restored.
- On a page hide, a rejected beacon puts the queue in front of itself, so the slot receives the queue twice. If saving throws, the queue is not cleared.
- If saving throws inside the timeout callback, the `timer` field is never cleared, so no timeout is ever scheduled again (`Scenarios.StuckTimerNeverRearms`).
- Records loaded from the slot do not enter the fingerprint cache.

## Model

| member | source | states |
|---|---|---|
| Configuration.Merge | src/utils/ErrorMonitor/errorMonitor.ts:21-30 | each key takes the caller's value when given and the default when omitted; a key explicitly set to undefined hides the default and reads as falsy (no method, empty address) |
| Configuration.DefaultsWhenNothingGiven | src/utils/ErrorMonitor/errorMonitor.ts:23-29 | with no options: no screen recording, batched requests, empty address, dedupe on, reporting on, no custom reporter |
| Configuration.DemoConfigMerged | src/utils/ErrorMonitor/constant.ts:9-14 | the repository's own monitor records the screen, batches to its address, dedupes, and reports because canReport defaults to true |
| Fingerprints.CreateHash | src/utils/ErrorMonitor/errorMonitor.ts:147-156 | the fingerprint is built from message, stack, line, column and file only; `FingerprintIdentifiesCore` shows it identifies exactly those five values |
| Fingerprints.FingerprintIdentifiesCore | src/utils/ErrorMonitor/errorMonitor.ts:147-156 | two records have equal fingerprints if and only if they agree on message, stack, line, column and file |
| Fingerprints.FingerprintIgnoresContext | src/utils/ErrorMonitor/errorMonitor.ts:147-156 | type, tag, url, timestamp, component stack and screen data never change a fingerprint |
| ScreenBuffer.Push | src/utils/ErrorMonitor/errorMonitor.ts:99-104 | the new event is last; below the capacity of 200 nothing is lost; at capacity only the oldest event is dropped; the result is the newest 200 events |
| ScreenBuffer.PushAllKeepsNewest | src/utils/ErrorMonitor/errorMonitor.ts:99-104 | after any sequence of emits the buffer is exactly the newest 200 events of everything seen, in order, and never exceeds 200 |
| Persistence.Save | src/utils/ErrorMonitor/errorMonitor.ts:261-268 | a slot that does not parse makes the save throw before writing; otherwise the slot becomes the stored records followed by the whole queue |
| Persistence.Load | src/utils/ErrorMonitor/errorMonitor.ts:271-282 | a parseable slot hands over its records and is removed; an unparseable slot yields nothing and stays |
| Persistence.SaveThenLoad | src/utils/ErrorMonitor/errorMonitor.ts:261-282 | loading after a save recovers the earlier records followed by the saved queue, in order |
| Persistence.SaveTwice | src/utils/ErrorMonitor/errorMonitor.ts:261-268 | two saves append both queues, so records saved twice are stored twice |
| ErrorMonitor.Create | src/utils/ErrorMonitor/errorMonitor.ts:21-42 | a new monitor has an empty cache, screen buffer, timer and request list; its queue is the slot's records and the slot is cleared, or the queue is empty if the slot is malformed |
| ErrorMonitor.Emit | src/utils/ErrorMonitor/errorMonitor.ts:99-104 | an emit changes only the screen buffer, which stays within 200 and holds the newest events |
| ErrorMonitor.SaveQueue | src/utils/ErrorMonitor/errorMonitor.ts:261-268 | only the slot changes; the save throws exactly when the slot is malformed; otherwise the whole queue is appended to the slot |
| ErrorMonitor.Prepare | src/utils/ErrorMonitor/errorMonitor.ts:112-121 | the record keeps its fingerprint and all fields except two: a missing timestamp becomes the current time, and with recording on the whole buffer is attached |
| ErrorMonitor.Admit | src/utils/ErrorMonitor/errorMonitor.ts:111-135 | the buffer is handed over (cleared) even for a duplicate; a record is rejected exactly when dedupe is on and its fingerprint is cached (`Duplicate`, the test of line 127); otherwise it is appended to the queue and its fingerprint is cached |
| ErrorMonitor.Capture | src/utils/ErrorMonitor/errorMonitor.ts:111-144 | a duplicate changes nothing but the buffer; with reporting off the queue, new record included, is appended to the slot (or the save throws); with batching the record is queued and a timeout is scheduled unless one is pending; with image, beacon or custom the queue, new record included, goes through the immediate-report loop; with an undefined method the record is only queued |
| ErrorMonitor.ManualRecord | src/utils/ErrorMonitor/errorMonitor.ts:327-333 | a manual report builds a react record with the error's message and stack, the component stack, the current time, and no file position, tag or url |
| ErrorMonitor.ManualReport | src/utils/ErrorMonitor/errorMonitor.ts:326-334 | the configuration is unchanged and the buffer is handed over when recording; the report is fingerprinted by message and stack with no file position; a cached one leaves queue, slot and reports unchanged; a new one queues that react record (with the buffer when recording); then, with reporting off, the queue is appended to the slot, or the save throws on a malformed slot; with batching the timer is set; with an undefined method nothing else happens; with image, beacon or custom the queue goes through the immediate-report loop |
| ErrorMonitor.ProcessQueue | src/utils/ErrorMonitor/errorMonitor.ts:159-170 | batching only schedules a timeout; image, beacon and custom report at once; an undefined method does nothing |
| ErrorMonitor.ScheduleBatchReport | src/utils/ErrorMonitor/errorMonitor.ts:173-182 | the timer field ends set, and a new timeout is counted only if the field was clear |
| ErrorMonitor.BatchReport | src/utils/ErrorMonitor/errorMonitor.ts:205-224 | nothing happens without records or an address; offline, the whole queue is appended to the slot and stays queued; online, the oldest 1 to 10 records leave the queue, in order, as one POST, and fewer than 10 means the queue is now empty |
| ErrorMonitor.TimerFire | src/utils/ErrorMonitor/errorMonitor.ts:176-181 | the pending timeout is consumed; a callback that returns clears the timer field, while one whose save throws leaves it set; the batch outcomes are those of BatchReport |
| ErrorMonitor.Complete | src/utils/ErrorMonitor/errorMonitor.ts:225-232 | a settled request leaves the in-flight list; success clears the slot; failure puts the batch back in front of the current queue and appends that queue to the slot, or throws on a malformed slot |
| ErrorMonitor.ReportViaNavigator | src/utils/ErrorMonitor/errorMonitor.ts:245-258 | no address means no call; an accepted beacon changes nothing else; a rejected one puts the data back in front of the queue and persists the queue |
| ErrorMonitor.Drain | src/utils/ErrorMonitor/errorMonitor.ts:185-202 | the loop never touches configuration, cache, buffer, timers or requests; it ends only with an empty queue; it can stop early only with the beacon method, with records still queued |
| ErrorMonitor.Flush | src/utils/ErrorMonitor/errorMonitor.ts:302-323 | an empty queue is untouched; both beacon methods send the whole queue in one beacon, and a rejection persists the queue twice; image sends one pixel per record; custom makes one call with the whole queue; the queue ends empty unless saving threw |
| Reporting.DrainImage | src/utils/ErrorMonitor/errorMonitor.ts:185-202 | with images, every queued record leaves as one pixel, oldest first, and the queue ends empty with the slot untouched |
| Reporting.DrainCustom | src/utils/ErrorMonitor/errorMonitor.ts:185-202 | with a custom reporter every record goes to it alone, oldest first; without one the records are dropped; the queue ends empty |
| Reporting.DrainWithoutAddress | src/utils/ErrorMonitor/errorMonitor.ts:194-196 | with the beacon method and no address, every record is dropped without any call |
| Reporting.DrainExtendsTrace | src/utils/ErrorMonitor/errorMonitor.ts:185-202 | the loop only appends reports: everything sent before stays, in place |
| Reporting.DrainNavigatorKeepsOrder | src/utils/ErrorMonitor/errorMonitor.ts:185-202 | with beacons, the accepted records followed by what is still queued are exactly the starting queue: nothing is lost or reordered |
| Reporting.RejectedBeaconsNeverFinish | src/utils/ErrorMonitor/errorMonitor.ts:185-202 | while every beacon is rejected the loop does not end, the queue never shrinks, and each rejection appends the whole queue to the slot again |
| Reporting.FlushMatchesDrainForImage | src/utils/ErrorMonitor/errorMonitor.ts:302-323 | with images, the page-hide flush sends the same pixels and leaves the same state as the immediate-report loop |
| Reporting.BatchFailureRestoresOrder | src/utils/ErrorMonitor/errorMonitor.ts:218-232 | a failed batch returns ahead of records queued later, restoring the original order, and the slot receives all of them |
| Reporting.TwoFailedBatchesSwap | src/utils/ErrorMonitor/errorMonitor.ts:228-232 | two batches failing in sending order come back in the opposite order |
| Session.Apply | src/utils/ErrorMonitor/errorMonitor.ts:124-135 | no event changes the configuration; an event accepts at most one record, which adds its fingerprint to the cache and, with dedupe on, was not cached before |
| Session.Run | src/utils/ErrorMonitor/errorMonitor.ts:124-135 | over a whole session the cache only grows and holds every accepted fingerprint; with dedupe on no accepted record was cached at the start |
| Session.RunAcceptsDistinctFingerprints | src/utils/ErrorMonitor/errorMonitor.ts:124-135 | with dedupe on, no two records accepted in a session share a fingerprint |
| Session.CreateValid | src/utils/ErrorMonitor/errorMonitor.ts:21-42 | a new monitor satisfies the invariant, whatever the slot holds |
| Session.ApplyPreservesValid | src/utils/ErrorMonitor/errorMonitor.ts:99-232 | every event keeps the invariant: buffer within 200 and empty without recording; at most one pending timeout and the field set when one is; timers and requests only with batching and reporting on; every batch in flight holds 1 to 10 records |
| Session.TimerFireKeepsValid | src/utils/ErrorMonitor/errorMonitor.ts:176-224 | a fired timeout keeps the invariant, and the batch it sends holds 1 to 10 records |
| Session.CompleteKeepsValid | src/utils/ErrorMonitor/errorMonitor.ts:225-232 | a settled request keeps the invariant |
| Session.CaptureKeepsTimers | src/utils/ErrorMonitor/errorMonitor.ts:159-182 | a capture keeps the invariant: only batching schedules a timeout, and only when none is pending |
| Session.RunPreservesValid | src/utils/ErrorMonitor/errorMonitor.ts:173-182 | every session keeps the invariant, so no more than one timeout is ever pending |
| Scenarios.RepeatedErrorIsDropped | src/utils/ErrorMonitor/errorMonitor.ts:124-129 | with dedupe on, a second error that agrees on the five identifying fields leaves queue, slot, reports and cache unchanged |
| Scenarios.CaptureImage | src/utils/ErrorMonitor/errorMonitor.ts:159-202 | with images, a capture sends the whole queue, new record last, as pixels, and empties the queue |
| Scenarios.ImageSessionReportsEachRecordOnce | src/utils/ErrorMonitor/errorMonitor.ts:159-202 | with images, a session of captures (listener errors and manual reports) starting from an empty queue sends exactly one pixel per accepted record, in capture order, and ends with an empty queue and the slot untouched |
| Scenarios.OfflineWindowPersistsBacklog | src/utils/ErrorMonitor/errorMonitor.ts:173-215 | with batching, a capture schedules one timeout; if it fires offline, the whole queue is appended to the slot, stays queued, and the timer is cleared |
| Scenarios.PersistenceOnlyStoresQueueAgain | src/utils/ErrorMonitor/errorMonitor.ts:137-143 | with reporting off, two captures leave the first record in the slot twice |
| Scenarios.ThrowingTimeoutLeavesTimerSet | src/utils/ErrorMonitor/errorMonitor.ts:176-180 | a timeout that fires offline over a malformed slot throws before clearing the field, leaving it set with no timeout pending |
| Scenarios.StuckTimerStaysStuck | src/utils/ErrorMonitor/errorMonitor.ts:173-182 | with the field set and nothing pending, no event schedules a timeout or starts a request |
| Scenarios.StuckTimerNeverRearms | src/utils/ErrorMonitor/errorMonitor.ts:173-182 | once stuck, the timer stays stuck for the rest of any session and the number of requests in flight never grows |
| Scenarios.LaterResourceErrorsAreDropped | src/utils/ErrorMonitor/errorMonitor.ts:64-74 | resource errors have no stack or position, and they share one message, so with dedupe on, once one resource error was captured, every later one leaves queue, slot and reports unchanged, whatever events came in between |
| Scenarios.ReloadRecoversSaved | src/utils/ErrorMonitor/errorMonitor.ts:261-282 | a monitor constructed over the slot a save wrote starts with the earlier records followed by the saved queue, and the slot is emptied |

## Left out

- Listener registration (lines 45-88 and 290-300) is not modelled. The error, unhandledrejection, visibilitychange and beforeunload listeners are the events of `Session.Event`, with the record the listener builds as a parameter (for resource errors, see the line on resource-load errors below).
- The rrweb recorder and its asynchronous import are not modelled; only its emit callback is. `RecorderEmitted` is enabled exactly when screen recording is on.
- `getErrorQueue` is not a separate member: it returns the `queue` field.
- `Date.now`, `navigator.onLine`, `sendBeacon` results and fetch outcomes are parameters.
- The 3000 ms delay is not modelled. A timeout is just an event that becomes enabled when one is pending.
- JSON encoding and decoding of records is modelled as the identity. The model assumes a parsed slot holds an array of records, so `null` entries (which the loop skips) and non-array JSON are not modelled. A slot that does not parse is `Malformed`.
- An absent slot and a slot holding `[]` are one state (`Cleared`). The code treats them alike.
- Report URLs, the query string and the pixel's own timestamp are not part of the trace. Each report records only what it carries.
- `fetch` resolves on any HTTP status, so an error response counts as success. The model has just two outcomes per request, with success standing for any response.
- An exception that escapes a callback ends that callback (exit `Thrown`). Whatever the browser then does with it, such as passing it to the error listener, is not modelled.
- The immediate-report loop with rejected beacons may never end. The loop consumes a finite sequence of beacon results, and when they run out the step ends `Spinning` and the session stops.
- The error cache and the queue are unbounded, as in the code.
- Resource-load errors: in a browser the resource `error` event has no `message`, so the record's message is undefined and the JSON fingerprint leaves the key out. The model's `message` is always a string. A resource record is represented with one fixed message shared by all resource errors, so they all share one fingerprint, as in a browser (`Scenarios.LaterResourceErrorsAreDropped`). Dedupe is on by default, so only the first resource error of a page is queued. The model does not distinguish an absent message from any given string.
- `localStorage.setItem` is modelled as never throwing, so the slot is unbounded. In a browser, saving fails with a quota error once the slot is full. Rejected beacons append the whole queue each time, so the all-rejected loop of `Reporting.RejectedBeaconsNeverFinish` ends in a browser with that exception instead of spinning forever.
- The custom reporter is modelled as never throwing. If it throws inside the immediate-report loop, the code has already shifted the record out, so that record is lost, later records stay queued and the exception leaves the capture. If it throws in the page-hide flush, the queue is not cleared.
- Reporting.DrainCustom: states that the queue ends empty, which holds only because the custom reporter never throws.
- ErrorMonitor.Flush: states that the queue ends empty unless saving threw, which assumes the custom reporter never throws.
- The React `ErrorBoundary` components, the demo pages and the replay player are not modelled. None of them calls `manualReport`: the error boundary only sets its own state, and the home page only reads `getErrorQueue()` and replays the screen data.
- Reporting.DrainNavigatorKeepsOrder: states delivery order and completeness of the beacon loop. It does not state the slot's contents after mixed beacon results; `RejectedBeaconsNeverFinish` states them for all-rejected runs.
- ErrorMonitor.Drain: its contract is a frame and termination-shape contract. What each method delivers is proved in the `Reporting` lemmas.

=== FILE: configuration.dfy ===
/**
  The monitor's configuration: what a caller passes and how it is merged with
  the defaults by object spread.
 */
module Configuration {
  import opened Types

  /**
    One optional key of the caller's options object. A key that is present but
    holds `undefined` is different from a missing key: the spread copies it and
    hides the default.
   */
  datatype Setting<T> = Omitted | Undefined | Given(value: T)

  /** The options object a caller hands to the constructor; `customReporter` says whether a callback is supplied. */
  datatype Options = Options(
    recordScreen: Setting<bool>,
    reportMethod: Setting<ReportMethod>,
    reportUrl: Setting<string>,
    dedupe: Setting<bool>,
    canReport: Setting<bool>,
    customReporter: Setting<bool>)

  /**
    The merged configuration. Booleans hold the truthiness of the merged value;
    `reportMethod` is `None` when it was explicitly undefined; an undefined
    `reportUrl` reads as the empty (falsy) address.
   */
  datatype Config = Config(
    recordScreen: bool,
    reportMethod: Option<ReportMethod>,
    reportUrl: string,
    dedupe: bool,
    canReport: bool,
    customReporter: bool)

  /** The options object with no key set. */
  const NoOptions: Options := Options(Omitted, Omitted, Omitted, Omitted, Omitted, Omitted)

  /** The truthiness of a merged boolean key. */
  function Flag(s: Setting<bool>, default: bool): (b: bool)
    ensures s.Given? ==> b == s.value
    ensures s.Omitted? ==> b == default
    ensures s.Undefined? ==> !b
  {
    match s
    case Omitted => default
    case Undefined => false
    case Given(v) => v
  }

  /** `{ recordScreen: false, reportMethod: "request", reportUrl: "", dedupe: true, canReport: true, ...options }`. */
  function Merge(o: Options): (c: Config)
    ensures o.recordScreen.Omitted? ==> !c.recordScreen
    ensures o.reportMethod.Omitted? ==> c.reportMethod == Some(Request)
    ensures o.reportMethod.Given? ==> c.reportMethod == Some(o.reportMethod.value)
    ensures o.reportMethod.Undefined? ==> c.reportMethod.None?
    ensures o.reportUrl.Given? ==> c.reportUrl == o.reportUrl.value
    ensures !o.reportUrl.Given? ==> c.reportUrl == ""
    ensures o.recordScreen.Given? ==> c.recordScreen == o.recordScreen.value
    ensures o.recordScreen.Undefined? ==> !c.recordScreen
    ensures o.dedupe.Omitted? ==> c.dedupe
    ensures o.dedupe.Given? ==> c.dedupe == o.dedupe.value
    ensures o.dedupe.Undefined? ==> !c.dedupe
    ensures o.canReport.Omitted? ==> c.canReport
    ensures o.canReport.Given? ==> c.canReport == o.canReport.value
    ensures o.canReport.Undefined? ==> !c.canReport
    ensures c.customReporter <==> o.customReporter == Given(true)
  {
    Config(
      Flag(o.recordScreen, false),
      match o.reportMethod
      case Omitted => Some(Request)
      case Undefined => None
      case Given(m) => Some(m),
      match o.reportUrl
      case Given(u) => u
      case _ => "",
      Flag(o.dedupe, true),
      Flag(o.canReport, true),
      Flag(o.customReporter, false))
  }

  /** The defaults alone: no screen recording, batched requests, no address, dedupe on, reporting on. */
  lemma DefaultsWhenNothingGiven()
    ensures Merge(NoOptions) == Config(false, Some(Request), "", true, true, false)
  {
  }

  /** The options the repository constructs its single monitor with. */
  const DemoOptions: Options :=
    Options(Given(true), Given(Request), Given("https://gmnError"), Given(true), Omitted, Omitted)

  /** The demo monitor records the screen, batches to its address, dedupes and reports (the default). */
  lemma DemoConfigMerged()
    ensures Merge(DemoOptions) == Config(true, Some(Request), "https://gmnError", true, true, false)
  {
  }
}

=== FILE: fingerprint.dfy ===
/**
  The error fingerprint used for deduplication. The source serializes an object
  literal with the five identifying fields in a fixed key order; that text is
  determined by, and determines, the five values, so the model keeps the five
  values themselves.
 */
module Fingerprints {
  import opened Types

  datatype Fingerprint = Fingerprint(
    message: string,
    stack: Option<string>,
    lineno: Option<int>,
    colno: Option<int>,
    filename: Option<string>)

  /** Two records agree on every field the fingerprint is built from. */
  predicate SameCore(a: ErrorData, b: ErrorData) {
    && a.message == b.message
    && a.stack == b.stack
    && a.lineno == b.lineno
    && a.colno == b.colno
    && a.filename == b.filename
  }

  /** createHash: the five identifying fields, in their fixed key order, and nothing else. */
  function CreateHash(d: ErrorData): (f: Fingerprint)
    ensures f.message == d.message && f.stack == d.stack && f.filename == d.filename
    ensures f.lineno == d.lineno && f.colno == d.colno
  {
    Fingerprint(d.message, d.stack, d.lineno, d.colno, d.filename)
  }

  /** Two records share a fingerprint exactly when they agree on the five identifying fields. */
  lemma FingerprintIdentifiesCore(a: ErrorData, b: ErrorData)
    ensures CreateHash(a) == CreateHash(b) <==> SameCore(a, b)
  {
  }

  /**
    Records that differ only in type, tag, url, timestamp, component stack or
    screen data have the same fingerprint, so the second one is a duplicate.
   */
  lemma FingerprintIgnoresContext(d: ErrorData, kind: ErrorType, tag: Option<string>, url: Option<string>,
                                  timestamp: Option<int>, componentStack: Option<string>,
                                  screenData: Option<seq<ScreenEvent>>)
    ensures CreateHash(d.(kind := kind, tag := tag, url := url, timestamp := timestamp,
                          componentStack := componentStack, screenData := screenData)) == CreateHash(d)
  {
  }
}

=== FILE: monitor.dfy ===
/**
  The error monitor as a state machine. Every browser effect is either a
  parameter (the network state, the result of each sendBeacon call, the clock)
  or an entry appended to `trace`, the reports the monitor issued, in order.
  Every transition returns a `Step`: the new state, and whether the JavaScript
  call returned, threw, or was still looping when the given beacon results ran out.
 */
module ErrorMonitor {
  import opened Types
  import opened Configuration
  import opened Fingerprints
  import ScreenBuffer
  import Persistence

  /** The most records one batched request carries. */
  const BatchSize: nat := 10

  /**
    The monitor's state.
    - `timer`: the `timer` field is set;
    - `live`: timeouts scheduled and not yet fired;
    - `inFlight`: batches handed to `fetch` whose promise has not settled yet.
   */
  datatype Monitor = Monitor(
    config: Config,
    queue: seq<ErrorData>,
    cache: set<Fingerprint>,
    screen: seq<ScreenEvent>,
    timer: bool,
    live: nat,
    inFlight: seq<seq<ErrorData>>,
    store: Store,
    trace: seq<Report>)

  /** How the JavaScript call that ran the transition ended. */
  datatype Exit =
    | Normal    // returned
    | Thrown    // an exception escaped: the stored text did not parse while saving
    | Spinning  // the immediate-report loop still runs when the given beacon results ran out

  datatype Step = Step(m: Monitor, exit: Exit)

  /** Reporting and persistence never touch the configuration, the fingerprint cache or the screen buffer. */
  predicate Untouched(a: Monitor, b: Monitor) {
    a.config == b.config && a.cache == b.cache && a.screen == b.screen
  }

  function Min(a: nat, b: nat): (r: nat)
    ensures r <= a && r <= b && (r == a || r == b)
  {
    if a <= b then a else b
  }

  /** One pixel report per record, in queue order. */
  function Pixels(q: seq<ErrorData>): (r: seq<Report>)
    ensures |r| == |q|
  {
    if |q| == 0 then [] else [Pixel(q[0])] + Pixels(q[1..])
  }

  /** One custom-reporter call with a one-record array per record, in queue order. */
  function SingleCalls(q: seq<ErrorData>): (r: seq<Report>)
    ensures |r| == |q|
  {
    if |q| == 0 then [] else [CustomCall([q[0]])] + SingleCalls(q[1..])
  }

  // ---------------------------------------------------------------- construction

  /** The constructor: merge the options, start with nothing, then load the durable slot. */
  function Create(options: Options, stored: Store): (m: Monitor)
    ensures m.config == Merge(options)
    ensures stored.Entries? ==> m.queue == stored.records && m.store == Cleared
    ensures stored.Malformed? ==> m.queue == [] && m.store == Malformed
    ensures m.cache == {} && m.screen == [] && !m.timer && m.live == 0 && m.inFlight == [] && m.trace == []
  {
    var loaded := Persistence.Load(stored);
    Monitor(Merge(options), [] + loaded.records, {}, [], false, 0, [], loaded.store, [])
  }

  // ---------------------------------------------------------------- screen buffer

  /** The recorder's emit callback: only the buffer changes. */
  function Emit(m: Monitor, e: ScreenEvent): (r: Monitor)
    ensures r.(screen := m.screen) == m
    ensures |m.screen| <= ScreenBuffer.Capacity ==> |r.screen| <= ScreenBuffer.Capacity
    ensures |m.screen| <= ScreenBuffer.Capacity ==> r.screen == ScreenBuffer.Newest(m.screen + [e], ScreenBuffer.Capacity)
  {
    m.(screen := ScreenBuffer.Push(m.screen, e))
  }

  // ---------------------------------------------------------------- persistence

  /** saveToLocalStorage: the slot receives the whole current queue after what it held. */
  function SaveQueue(m: Monitor): (r: Step)
    ensures r.m.(store := m.store) == m
    ensures r.exit != Spinning
    ensures r.exit == Thrown <==> m.store.Malformed?
    ensures r.exit == Thrown ==> r.m == m
    ensures r.exit == Normal ==> r.m.store == Entries(m.store.records + m.queue)
  {
    match Persistence.Save(m.store, m.queue)
    case None => Step(m, Thrown)
    case Some(st) => Step(m.(store := st), Normal)
  }

  // ---------------------------------------------------------------- capture

  /** The outcome of the capture steps before dispatch: the state, and the record accepted if any. */
  datatype Admission = Admission(m: Monitor, accepted: Option<ErrorData>)

  /**
    The record handleError builds: the timestamp filled in when absent, and with
    screen recording on, the whole current buffer attached.
   */
  function Prepare(c: Config, screen: seq<ScreenEvent>, data: ErrorData, now: int): (d: ErrorData)
    ensures CreateHash(d) == CreateHash(data)
    ensures d.timestamp == (if data.timestamp.Some? then data.timestamp else Some(now))
    ensures d.screenData == (if c.recordScreen then Some(screen) else data.screenData)
    ensures d.(timestamp := data.timestamp, screenData := data.screenData) == data
  {
    var stamped := data.(timestamp := Some(data.timestamp.GetOr(now)));
    if c.recordScreen then stamped.(screenData := Some(screen)) else stamped
  }

  /** With dedupe on, a record whose fingerprint was seen before is dropped. */
  predicate Duplicate(m: Monitor, data: ErrorData) {
    m.config.dedupe && CreateHash(data) in m.cache
  }

  /**
    handleError up to the enqueue: stamp the record, hand it the screen buffer
    (even when it turns out to be a duplicate), then check and extend the cache
    and append the record.
   */
  function Admit(m: Monitor, data: ErrorData, now: int): (r: Admission)
    ensures r.m.(screen := m.screen, cache := m.cache, queue := m.queue) == m
    ensures r.m.screen == (if m.config.recordScreen then [] else m.screen)
    ensures r.accepted.None? <==> Duplicate(m, data)
    ensures Duplicate(m, data) ==> r.m.queue == m.queue && r.m.cache == m.cache
    ensures !Duplicate(m, data) ==>
              && r.accepted == Some(Prepare(m.config, m.screen, data, now))
              && r.m.queue == m.queue + [r.accepted.value]
              && r.m.cache == m.cache + {CreateHash(data)}
  {
    var d := Prepare(m.config, m.screen, data, now);
    var m1 := if m.config.recordScreen then m.(screen := []) else m;
    var hash := CreateHash(d);
    if m1.config.dedupe && hash in m1.cache then Admission(m1, None)
    else Admission(m1.(cache := m1.cache + {hash}, queue := m1.queue + [d]), Some(d))
  }

  /** Capture: admit the record, then report (reporting on) or persist (reporting off). */
  function Capture(m: Monitor, data: ErrorData, now: int, beacons: seq<bool>): (r: Step)
    ensures r.m.config == m.config
    ensures r.m.screen == (if m.config.recordScreen then [] else m.screen)
    ensures r.m.cache == (if Duplicate(m, data) then m.cache else m.cache + {CreateHash(data)})
    ensures Duplicate(m, data) ==> r == Step(m.(screen := r.m.screen), Normal)
    ensures !Duplicate(m, data) && !m.config.canReport ==>
              var rec := Prepare(m.config, m.screen, data, now);
              && r.m.queue == m.queue + [rec]
              && r.m.timer == m.timer && r.m.live == m.live && r.m.inFlight == m.inFlight && r.m.trace == m.trace
              && (m.store.Entries? ==> r == Step(r.m, Normal) && r.m.store == Entries(m.store.records + m.queue + [rec]))
              && (m.store.Malformed? ==> r == Step(r.m, Thrown) && r.m.store == Malformed)
    ensures !Duplicate(m, data) && m.config.canReport && m.config.reportMethod == Some(Request) ==>
              && r.exit == Normal
              && r.m.queue == m.queue + [Prepare(m.config, m.screen, data, now)]
              && r.m.timer
              && r.m.live == (if m.timer then m.live else m.live + 1)
              && r.m.inFlight == m.inFlight && r.m.store == m.store && r.m.trace == m.trace
    ensures !Duplicate(m, data) && m.config.canReport &&
            m.config.reportMethod in {Some(Image), Some(Navigator), Some(Custom)} ==>
              r == Drain(Admit(m, data, now).m, beacons)
    ensures !Duplicate(m, data) && m.config.canReport && m.config.reportMethod.None? ==>
              && r.exit == Normal
              && r.m.queue == m.queue + [Prepare(m.config, m.screen, data, now)]
              && r.m.timer == m.timer && r.m.live == m.live && r.m.inFlight == m.inFlight
              && r.m.store == m.store && r.m.trace == m.trace
  {
    var a := Admit(m, data, now);
    if a.accepted.None? then Step(a.m, Normal)
    else if a.m.config.canReport then ProcessQueue(a.m, beacons)
    else SaveQueue(a.m)
  }

  /** The record manualReport builds from a caught error and its component stack. */
  function ManualRecord(message: string, stack: Option<string>, componentStack: Option<string>, now: int): (d: ErrorData)
    ensures d.kind == React && d.message == message && d.stack == stack && d.componentStack == componentStack
    ensures d.timestamp == Some(now)
    ensures d.filename.None? && d.lineno.None? && d.colno.None? && d.tag.None? && d.url.None? && d.screenData.None?
  {
    ErrorData(React, message, stack, componentStack, None, None, None, None, None, Some(now), None)
  }

  /**
    manualReport. A manual report carries no file position, so it is a duplicate
    exactly when a record with the same message and stack and no position was seen.
   */
  function ManualReport(m: Monitor, message: string, stack: Option<string>, componentStack: Option<string>,
                        now: int, beacons: seq<bool>): (r: Step)
    ensures r.m.config == m.config
    ensures r.m.screen == (if m.config.recordScreen then [] else m.screen)
    ensures var hash := Fingerprint(message, stack, None, None, None);
            r.m.cache == (if m.config.dedupe && hash in m.cache then m.cache else m.cache + {hash})
    ensures m.config.dedupe && Fingerprint(message, stack, None, None, None) in m.cache ==>
              r == Step(m.(screen := r.m.screen), Normal)
    ensures !(m.config.dedupe && Fingerprint(message, stack, None, None, None) in m.cache) ==>
              var rec := ErrorData(React, message, stack, componentStack, None, None, None, None, None, Some(now),
                                   if m.config.recordScreen then Some(m.screen) else None);
              && (!m.config.canReport ==>
                    && r.m.queue == m.queue + [rec]
                    && (m.store.Entries? ==> r.exit == Normal && r.m.store == Entries(m.store.records + m.queue + [rec])))
              && (m.config.canReport && m.config.reportMethod in {Some(Request), None} ==>
                    r.exit == Normal && r.m.queue == m.queue + [rec] && r.m.store == m.store && r.m.trace == m.trace)
              && (m.config.canReport && m.config.reportMethod == Some(Request) ==> r.m.timer)
              && (!m.config.canReport && m.store.Malformed? ==> r.exit == Thrown && r.m.store == Malformed)
              && (!m.config.canReport || m.config.reportMethod in {Some(Request), None} ==>
                    && r.m.inFlight == m.inFlight
                    && r.m.timer == (m.timer || (m.config.canReport && m.config.reportMethod == Some(Request)))
                    && r.m.live == (if !m.timer && m.config.canReport && m.config.reportMethod == Some(Request)
                                    then m.live + 1 else m.live)
                    && (!m.config.canReport ==> r.m.trace == m.trace))
    ensures var rec := ManualRecord(message, stack, componentStack, now);
            !Duplicate(m, rec) && m.config.canReport &&
            m.config.reportMethod in {Some(Image), Some(Navigator), Some(Custom)} ==>
              r == Drain(Admit(m, rec, now).m, beacons)
  {
    Capture(m, ManualRecord(message, stack, componentStack, now), now, beacons)
  }

  // ---------------------------------------------------------------- dispatch

  /** processQueue: batch methods schedule a timer, the others report at once. */
  function ProcessQueue(m: Monitor, beacons: seq<bool>): (r: Step)
    ensures Untouched(m, r.m)
    ensures m.config.reportMethod == Some(Request) ==> r == Step(ScheduleBatchReport(m), Normal)
    ensures m.config.reportMethod.None? ==> r == Step(m, Normal)
    ensures m.config.reportMethod in {Some(Image), Some(Navigator), Some(Custom)} ==> r == Drain(m, beacons)
  {
    match m.config.reportMethod
    case Some(Request) => Step(ScheduleBatchReport(m), Normal)
    case Some(Image) | Some(Navigator) | Some(Custom) => Drain(m, beacons)
    case None => Step(m, Normal)
  }

  /** scheduleBatchReport: a timeout is created only when the timer field is not set. */
  function ScheduleBatchReport(m: Monitor): (r: Monitor)
    ensures r.timer
    ensures r.live == (if m.timer then m.live else m.live + 1)
    ensures r.(timer := m.timer, live := m.live) == m
  {
    if m.timer then m else m.(timer := true, live := m.live + 1)
  }

  /**
    The timeout's callback: batchReport, then the timer field is cleared. When
    saving throws, the exception skips the clearing and the field stays set.
   */
  function TimerFire(m: Monitor, online: bool): (r: Step)
    requires m.live > 0
    ensures Untouched(m, r.m)
    ensures r.m.live == m.live - 1
    ensures r.exit != Spinning
    ensures r.exit == Normal ==> !r.m.timer
    ensures r.exit == Thrown ==> r.m == m.(live := m.live - 1)
    ensures |m.queue| == 0 || m.config.reportUrl == "" ==>
              r == Step(m.(timer := false, live := m.live - 1), Normal)
    ensures |m.queue| > 0 && m.config.reportUrl != "" && !online ==>
              && r.m.queue == m.queue && r.m.inFlight == m.inFlight && r.m.trace == m.trace
              && (m.store.Entries? ==> r.exit == Normal && r.m.store == Entries(m.store.records + m.queue))
              && (m.store.Malformed? ==> r.exit == Thrown && r.m.timer == m.timer)
    ensures |m.queue| > 0 && m.config.reportUrl != "" && online ==>
              && r.exit == Normal
              && |r.m.inFlight| == |m.inFlight| + 1
              && r.m.inFlight[..|m.inFlight|] == m.inFlight
              && var batch := r.m.inFlight[|m.inFlight|];
                 && batch + r.m.queue == m.queue
                 && 0 < |batch| <= BatchSize
                 && (|batch| < BatchSize ==> r.m.queue == [])
                 && r.m.trace == m.trace + [Post(batch)]
                 && r.m.store == m.store
  {
    var fired := m.(live := m.live - 1);
    var b := BatchReport(fired, online);
    if b.exit == Thrown then b else Step(b.m.(timer := false), Normal)
  }

  /**
    batchReport: nothing without records or an address; offline, persist the
    whole queue; otherwise take the oldest records, up to `BatchSize`, and post them.
   */
  function BatchReport(m: Monitor, online: bool): (r: Step)
    ensures Untouched(m, r.m) && r.m.timer == m.timer && r.m.live == m.live
    ensures r.exit != Spinning
    ensures |m.queue| == 0 || m.config.reportUrl == "" ==> r == Step(m, Normal)
    ensures |m.queue| > 0 && m.config.reportUrl != "" && !online ==>
              && r.m.queue == m.queue && r.m.inFlight == m.inFlight && r.m.trace == m.trace
              && (m.store.Entries? ==> r.exit == Normal && r.m.store == Entries(m.store.records + m.queue))
              && (m.store.Malformed? ==> r == Step(m, Thrown))
    ensures |m.queue| > 0 && m.config.reportUrl != "" && online ==>
              && r.exit == Normal
              && |r.m.inFlight| == |m.inFlight| + 1
              && r.m.inFlight[..|m.inFlight|] == m.inFlight
              && var batch := r.m.inFlight[|m.inFlight|];
                 && batch + r.m.queue == m.queue
                 && 0 < |batch| <= BatchSize
                 && (|batch| < BatchSize ==> r.m.queue == [])
                 && r.m.trace == m.trace + [Post(batch)]
                 && r.m.store == m.store
  {
    if |m.queue| == 0 || m.config.reportUrl == "" then Step(m, Normal)
    else if !online then SaveQueue(m)
    else
      var n := Min(BatchSize, |m.queue|);
      var batch := m.queue[..n];
      Step(m.(queue := m.queue[n..], inFlight := m.inFlight + [batch], trace := m.trace + [Post(batch)]), Normal)
  }

  /**
    The settlement of the `i`-th request in flight. On success the slot is
    cleared; on failure the batch goes back in front of the current queue and
    the queue is persisted.
   */
  function Complete(m: Monitor, i: nat, ok: bool): (r: Step)
    requires i < |m.inFlight|
    ensures Untouched(m, r.m) && r.m.timer == m.timer && r.m.live == m.live && r.m.trace == m.trace
    ensures r.exit != Spinning
    ensures r.m.inFlight == m.inFlight[..i] + m.inFlight[i + 1..]
    ensures ok ==> r.exit == Normal && r.m.queue == m.queue && r.m.store == Cleared
    ensures !ok ==> r.m.queue == m.inFlight[i] + m.queue
    ensures !ok && m.store.Entries? ==>
              r.exit == Normal && r.m.store == Entries(m.store.records + m.inFlight[i] + m.queue)
    ensures !ok && m.store.Malformed? ==> r.exit == Thrown && r.m.store == Malformed
  {
    var batch := m.inFlight[i];
    var m1 := m.(inFlight := m.inFlight[..i] + m.inFlight[i + 1..]);
    if ok then Step(m1.(store := Cleared), Normal)
    else SaveQueue(m1.(queue := batch + m1.queue))
  }

  /**
    reportViaNavigator: no address, no call. A rejected beacon puts `data` back
    in front of the queue and persists the queue.
   */
  function ReportViaNavigator(m: Monitor, data: seq<ErrorData>, ok: bool): (r: Step)
    ensures Untouched(m, r.m) && r.m.timer == m.timer && r.m.live == m.live && r.m.inFlight == m.inFlight
    ensures r.exit != Spinning
    ensures m.config.reportUrl == "" ==> r == Step(m, Normal)
    ensures m.config.reportUrl != "" ==> r.m.trace == m.trace + [Beacon(data, ok)]
    ensures m.config.reportUrl != "" && ok ==> r.exit == Normal && r.m.queue == m.queue && r.m.store == m.store
    ensures m.config.reportUrl != "" && !ok ==> r.m.queue == data + m.queue
    ensures m.config.reportUrl != "" && !ok && m.store.Entries? ==>
              r.exit == Normal && r.m.store == Entries(m.store.records + data + m.queue)
    ensures m.config.reportUrl != "" && !ok && m.store.Malformed? ==> r.exit == Thrown && r.m.store == Malformed
  {
    if m.config.reportUrl == "" then Step(m, Normal)
    else
      var sent := m.(trace := m.trace + [Beacon(data, ok)]);
      if ok then Step(sent, Normal)
      else SaveQueue(sent.(queue := data + sent.queue))
  }

  /**
    immediateReport: shift the oldest record and report it alone, until the
    queue is empty. `beacons` supplies the results of the successive sendBeacon
    calls; when they run out while a call is due, the result is `Spinning` with
    the state at the top of that loop turn, the record still queued.
   */
  function Drain(m: Monitor, beacons: seq<bool>): (r: Step)
    ensures Untouched(m, r.m) && r.m.timer == m.timer && r.m.live == m.live && r.m.inFlight == m.inFlight
    ensures |m.trace| <= |r.m.trace|
    ensures r.exit == Normal ==> r.m.queue == []
    ensures r.exit != Normal ==> m.config.reportMethod == Some(Navigator) && |r.m.queue| > 0
    decreases |beacons|, |m.queue|
  {
    if |m.queue| == 0 then Step(m, Normal)
    else
      var d := m.queue[0];
      var rest := m.(queue := m.queue[1..]);
      match m.config.reportMethod
      case Some(Image) => Drain(rest.(trace := rest.trace + [Pixel(d)]), beacons)
      case Some(Custom) =>
        Drain(if m.config.customReporter then rest.(trace := rest.trace + [CustomCall([d])]) else rest, beacons)
      case Some(Navigator) =>
        if m.config.reportUrl == "" then Drain(rest, beacons)
        else if |beacons| == 0 then Step(m, Spinning)
        else
          var sent := ReportViaNavigator(rest, [d], beacons[0]);
          if sent.exit == Thrown then sent else Drain(sent.m, beacons[1..])
      case _ => Drain(rest, beacons)
  }

  // ---------------------------------------------------------------- page hide

  /**
    flushQueue, run when the page is hidden or unloaded. The beacon methods send
    the queue array itself, so a rejected beacon puts the queue in front of
    itself. The queue is emptied afterwards unless saving threw.
   */
  function Flush(m: Monitor, beaconOk: bool): (r: Step)
    ensures Untouched(m, r.m) && r.m.timer == m.timer && r.m.live == m.live && r.m.inFlight == m.inFlight
    ensures r.exit != Spinning
    ensures |m.queue| == 0 ==> r == Step(m, Normal)
    ensures |m.queue| > 0 && r.exit == Normal ==> r.m.queue == []
    ensures var beaconMethod := m.config.reportMethod in {Some(Request), Some(Navigator)};
            |m.queue| > 0 && beaconMethod && m.config.reportUrl != "" ==>
              && r.m.trace == m.trace + [Beacon(m.queue, beaconOk)]
              && (beaconOk ==> r == Step(r.m, Normal) && r.m.store == m.store)
              && (!beaconOk && m.store.Entries? ==>
                    r == Step(r.m, Normal) && r.m.store == Entries(m.store.records + m.queue + m.queue))
              && (!beaconOk && m.store.Malformed? ==>
                    r.exit == Thrown && r.m.queue == m.queue + m.queue && r.m.store == Malformed)
    ensures var beaconMethod := m.config.reportMethod in {Some(Request), Some(Navigator)};
            |m.queue| > 0 && (m.config.reportMethod.None? || (beaconMethod && m.config.reportUrl == "")) ==>
              r == Step(m.(queue := []), Normal)
    ensures |m.queue| > 0 && m.config.reportMethod == Some(Image) ==>
              r == Step(m.(queue := [], trace := m.trace + Pixels(m.queue)), Normal)
    ensures |m.queue| > 0 && m.config.reportMethod == Some(Custom) ==>
              r == Step(m.(queue := [], trace := m.trace + if m.config.customReporter then [CustomCall(m.queue)] else []), Normal)
  {
    if |m.queue| == 0 then Step(m, Normal)
    else
      var sent :=
        match m.config.reportMethod
        case Some(Request) => ReportViaNavigator(m, m.queue, beaconOk)
        case Some(Navigator) => ReportViaNavigator(m, m.queue, beaconOk)
        case Some(Image) => Step(m.(trace := m.trace + Pixels(m.queue)), Normal)
        case Some(Custom) =>
          Step(if m.config.customReporter then m.(trace := m.trace + [CustomCall(m.queue)]) else m, Normal)
        case None => Step(m, Normal);
      if sent.exit == Thrown then sent else Step(sent.m.(queue := []), Normal)
  }
}

=== FILE: persistence.dfy ===
/**
  The durable slot "errorQueue": appending the in-memory queue to it, loading
  it at construction, and clearing it. JSON encoding and decoding of records is
  the identity; a slot whose text does not parse is `Malformed`.
 */
module Persistence {
  import opened Types

  /** What loading at construction yields: the recovered records and the slot left behind. */
  datatype Loaded = Loaded(records: seq<ErrorData>, store: Store)

  /**
    saveToLocalStorage: parse what is stored (nothing stored reads as an empty
    array) and write back the stored records followed by the whole queue.
    `None` means the parse threw, before anything was written.
   */
  function Save(store: Store, queue: seq<ErrorData>): (r: Option<Store>)
    ensures r.None? <==> store.Malformed?
    ensures r.Some? ==> && r.value.Entries?
                        && |r.value.records| == |store.records| + |queue|
                        && r.value.records[..|store.records|] == store.records
                        && r.value.records[|store.records|..] == queue
  {
    match store
    case Malformed => None
    case Entries(prior) => Some(Entries(prior + queue))
  }

  /**
    loadFromLocalStorage: a parseable slot hands over its records and is
    removed; an unparseable one is logged and left where it is.
   */
  function Load(store: Store): (r: Loaded)
    ensures store.Entries? ==> r == Loaded(store.records, Cleared)
    ensures store.Malformed? ==> r == Loaded([], Malformed)
  {
    match store
    case Malformed => Loaded([], Malformed)
    case Entries(rs) => Loaded(rs, Cleared)
  }

  /**
    Nothing saved is lost across a reload: loading after a save recovers the
    previously stored records followed by the saved queue, in order.
   */
  lemma SaveThenLoad(prior: seq<ErrorData>, queue: seq<ErrorData>)
    ensures Save(Entries(prior), queue).Some?
    ensures Load(Save(Entries(prior), queue).value) == Loaded(prior + queue, Cleared)
  {
  }

  /** Saving twice appends the queue twice: records already stored are stored again. */
  lemma SaveTwice(store: Store, q1: seq<ErrorData>, q2: seq<ErrorData>)
    requires store.Entries?
    ensures Save(Save(store, q1).value, q2) == Some(Entries(store.records + q1 + q2))
  {
  }
}

=== FILE: reporting.dfy ===
/**
  What the reporting paths deliver: the immediate-report loop for each method,
  its behaviour under repeated beacon rejection, the batch round trip, and the
  page-hide flush compared with the loop.
 */
module Reporting {
  import opened Types
  import opened ErrorMonitor

  /** The records carried by accepted beacons, in the order of the calls. */
  function Delivered(t: seq<Report>): (r: seq<ErrorData>) {
    if |t| == 0 then []
    else (if t[0].Beacon? && t[0].accepted then t[0].payload else []) + Delivered(t[1..])
  }

  /** `k` copies of `q` one after another. */
  function Repeat(q: seq<ErrorData>, k: nat): (r: seq<ErrorData>)
    ensures |r| == k * |q|
  {
    if k == 0 then [] else q + Repeat(q, k - 1)
  }

  lemma {:induction false} PixelsAppend(a: seq<ErrorData>, b: seq<ErrorData>)
    ensures Pixels(a + b) == Pixels(a) + Pixels(b)
    decreases |a|
  {
    if |a| == 0 {
      assert a + b == b;
    } else {
      assert (a + b)[1..] == a[1..] + b;
      PixelsAppend(a[1..], b);
    }
  }

  /** One turn of the loop for the image method: the oldest record leaves as a pixel. */
  lemma DrainImageStep(m: Monitor, beacons: seq<bool>)
    requires m.config.reportMethod == Some(Image) && |m.queue| > 0
    ensures Drain(m, beacons) == Drain(m.(queue := m.queue[1..], trace := m.trace + [Pixel(m.queue[0])]), beacons)
  {
  }

  /** One turn of the loop for the custom method: the oldest record goes to the reporter, if any. */
  lemma DrainCustomStep(m: Monitor, beacons: seq<bool>)
    requires m.config.reportMethod == Some(Custom) && |m.queue| > 0
    ensures Drain(m, beacons) ==
            Drain(if m.config.customReporter
                  then m.(queue := m.queue[1..], trace := m.trace + [CustomCall([m.queue[0]])])
                  else m.(queue := m.queue[1..]), beacons)
  {
  }

  /** One turn of the loop for the beacon method with an address and a beacon result available. */
  lemma DrainNavigatorStep(m: Monitor, beacons: seq<bool>)
    requires m.config.reportMethod == Some(Navigator) && m.config.reportUrl != ""
    requires |m.queue| > 0 && |beacons| > 0
    ensures var sent := ReportViaNavigator(m.(queue := m.queue[1..]), [m.queue[0]], beacons[0]);
            Drain(m, beacons) == if sent.exit == Thrown then sent else Drain(sent.m, beacons[1..])
  {
  }

  /** Image method: every queued record leaves as one pixel, oldest first, and the queue ends empty. */
  lemma {:induction false} DrainImage(m: Monitor, beacons: seq<bool>)
    requires m.config.reportMethod == Some(Image)
    ensures Drain(m, beacons) == Step(m.(queue := [], trace := m.trace + Pixels(m.queue)), Normal)
    decreases |m.queue|
  {
    if |m.queue| == 0 {
      assert m.trace + Pixels(m.queue) == m.trace;
    } else {
      var d := m.queue[0];
      var next := m.(queue := m.queue[1..], trace := m.trace + [Pixel(d)]);
      DrainImageStep(m, beacons);
      DrainImage(next, beacons);
      assert m.trace + [Pixel(d)] + Pixels(m.queue[1..]) == m.trace + Pixels(m.queue);
    }
  }

  /**
    Custom method: every queued record is handed to the reporter alone, oldest
    first; without a reporter the records are still removed. The queue ends empty.
   */
  lemma {:induction false} DrainCustom(m: Monitor, beacons: seq<bool>)
    requires m.config.reportMethod == Some(Custom)
    ensures Drain(m, beacons) ==
            Step(m.(queue := [], trace := m.trace + if m.config.customReporter then SingleCalls(m.queue) else []), Normal)
    decreases |m.queue|
  {
    if |m.queue| == 0 {
      assert m.trace + SingleCalls(m.queue) == m.trace + [] == m.trace;
    } else {
      var d := m.queue[0];
      DrainCustomStep(m, beacons);
      if m.config.customReporter {
        var next := m.(queue := m.queue[1..], trace := m.trace + [CustomCall([d])]);
        DrainCustom(next, beacons);
        assert m.trace + [CustomCall([d])] + SingleCalls(m.queue[1..]) == m.trace + SingleCalls(m.queue);
      } else {
        DrainCustom(m.(queue := m.queue[1..]), beacons);
        assert m.trace + [] == m.trace;
      }
    }
  }

  /** Beacon method without an address: every record is dropped silently. */
  lemma {:induction false} DrainWithoutAddress(m: Monitor, beacons: seq<bool>)
    requires m.config.reportMethod == Some(Navigator) && m.config.reportUrl == ""
    ensures Drain(m, beacons) == Step(m.(queue := []), Normal)
    decreases |m.queue|
  {
    if |m.queue| > 0 {
      DrainWithoutAddress(m.(queue := m.queue[1..]), beacons);
    }
  }

  /** `t` starts with `s`. */
  predicate Extends(t: seq<Report>, s: seq<Report>) {
    |s| <= |t| && t[..|s|] == s
  }

  /** The loop only appends to the trace: every report made before it stays, in place. */
  lemma {:induction false} DrainExtendsTrace(m: Monitor, beacons: seq<bool>)
    ensures Extends(Drain(m, beacons).m.trace, m.trace)
    decreases |beacons|, |m.queue|
  {
    var r := Drain(m, beacons);
    if |m.queue| > 0 {
      var d := m.queue[0];
      var rest := m.(queue := m.queue[1..]);
      match m.config.reportMethod
      case Some(Image) =>
        var next := rest.(trace := rest.trace + [Pixel(d)]);
        DrainExtendsTrace(next, beacons);
        PrefixOfPrefix(r.m.trace, next.trace, m.trace);
      case Some(Custom) =>
        var next := if m.config.customReporter then rest.(trace := rest.trace + [CustomCall([d])]) else rest;
        DrainExtendsTrace(next, beacons);
        PrefixOfPrefix(r.m.trace, next.trace, m.trace);
      case Some(Navigator) =>
        if m.config.reportUrl == "" {
          DrainExtendsTrace(rest, beacons);
        } else if |beacons| > 0 {
          var sent := ReportViaNavigator(rest, [d], beacons[0]);
          if sent.exit != Thrown {
            DrainExtendsTrace(sent.m, beacons[1..]);
            PrefixOfPrefix(r.m.trace, sent.m.trace, m.trace);
          }
        }
      case _ =>
        DrainExtendsTrace(rest, beacons);
    }
  }

  lemma PrefixOfPrefix(t: seq<Report>, u: seq<Report>, s: seq<Report>)
    requires Extends(t, u) && Extends(u, s)
    ensures Extends(t, s)
  {
  }

  lemma DeliveredAfterOne(t: seq<Report>, k: nat)
    requires k < |t|
    ensures Delivered(t[k..]) ==
            (if t[k].Beacon? && t[k].accepted then t[k].payload else []) + Delivered(t[k + 1..])
  {
    assert t[k..][1..] == t[k + 1..];
  }

  /** One beacon call at position `k` of the trace, seen from the sequences alone. */
  lemma DeliveredStep(t: seq<Report>, k: nat, q: seq<ErrorData>, ok: bool, sentQueue: seq<ErrorData>,
                      finalQueue: seq<ErrorData>)
    requires k < |t| && |q| > 0 && t[k] == Beacon([q[0]], ok)
    requires sentQueue == if ok then q[1..] else q
    requires Delivered(t[k + 1..]) + finalQueue == sentQueue
    ensures Delivered(t[k..]) + finalQueue == q
  {
    DeliveredAfterOne(t, k);
    var rest := Delivered(t[k + 1..]);
    if ok {
      assert [q[0]] + rest + finalQueue == [q[0]] + (rest + finalQueue);
      assert [q[0]] + q[1..] == q;
    } else {
      assert [] + rest == rest;
    }
  }

  /**
    Beacon method with an address: nothing is lost or reordered. The records of
    the accepted beacons, followed by what is left in the queue, are the queue
    the loop started with; a rejected record is retried before any later one.
   */
  lemma {:induction false} DrainNavigatorKeepsOrder(m: Monitor, beacons: seq<bool>)
    requires m.config.reportMethod == Some(Navigator) && m.config.reportUrl != ""
    ensures var r := Drain(m, beacons);
            Delivered(r.m.trace[|m.trace|..]) + r.m.queue == m.queue
    decreases |beacons|, |m.queue|
  {
    var r := Drain(m, beacons);
    if |m.queue| == 0 || |beacons| == 0 {
      assert r.m.trace[|m.trace|..] == [];
    } else {
      var d := m.queue[0];
      var sent := ReportViaNavigator(m.(queue := m.queue[1..]), [d], beacons[0]);
      DrainNavigatorStep(m, beacons);
      var k := |m.trace|;
      assert sent.m.trace == m.trace + [Beacon([d], beacons[0])];
      assert sent.m.queue == if beacons[0] then m.queue[1..] else [d] + m.queue[1..];
      assert [d] + m.queue[1..] == m.queue;
      if sent.exit == Thrown {
        assert r == sent;
        assert r.m.trace[k + 1..] == [];
        DeliveredStep(r.m.trace, k, m.queue, beacons[0], sent.m.queue, r.m.queue);
      } else {
        assert r == Drain(sent.m, beacons[1..]);
        DrainNavigatorKeepsOrder(sent.m, beacons[1..]);
        DrainExtendsTrace(sent.m, beacons[1..]);
        assert r.m.trace[..k + 1] == sent.m.trace;
        assert r.m.trace[k] == r.m.trace[..k + 1][k];
        DeliveredStep(r.m.trace, k, m.queue, beacons[0], sent.m.queue, r.m.queue);
      }
    }
  }

  /**
    The immediate-report loop need not end: while every beacon is rejected, no
    finite run of results finishes it. The queue never shrinks and every
    rejection appends the whole queue to the store once more.
   */
  lemma {:induction false} RejectedBeaconsNeverFinish(m: Monitor, beacons: seq<bool>)
    requires m.config.reportMethod == Some(Navigator) && m.config.reportUrl != ""
    requires |m.queue| > 0 && m.store.Entries?
    requires forall i :: 0 <= i < |beacons| ==> !beacons[i]
    ensures var r := Drain(m, beacons);
            && r.exit == Spinning
            && r.m.queue == m.queue
            && r.m.store == Entries(m.store.records + Repeat(m.queue, |beacons|))
    decreases |beacons|
  {
    if |beacons| == 0 {
      assert m.store.records + [] == m.store.records;
    } else {
      var next := RejectedOnce(m, beacons);
      RejectedBeaconsNeverFinish(next, beacons[1..]);
      RepeatUnfold(m.store.records, m.queue, |beacons|);
    }
  }

  /** One rejected beacon: the record is back in front and the whole queue is appended to the store. */
  lemma RejectedOnce(m: Monitor, beacons: seq<bool>) returns (next: Monitor)
    requires m.config.reportMethod == Some(Navigator) && m.config.reportUrl != ""
    requires |m.queue| > 0 && m.store.Entries? && |beacons| > 0 && !beacons[0]
    ensures next.config == m.config && next.queue == m.queue && next.store == Entries(m.store.records + m.queue)
    ensures Drain(m, beacons) == Drain(next, beacons[1..])
  {
    var q := m.queue;
    assert [q[0]] + q[1..] == q;
    var sent := ReportViaNavigator(m.(queue := q[1..]), [q[0]], false);
    DrainNavigatorStep(m, beacons);
    next := sent.m;
  }

  lemma RepeatUnfold(prior: seq<ErrorData>, q: seq<ErrorData>, k: nat)
    requires k > 0
    ensures prior + q + Repeat(q, k - 1) == prior + Repeat(q, k)
  {
  }

  /**
    For the image method the page-hide flush issues the same pixels as the
    immediate-report loop would, and leaves the same state.
   */
  lemma FlushMatchesDrainForImage(m: Monitor, beaconOk: bool, beacons: seq<bool>)
    requires m.config.reportMethod == Some(Image)
    ensures Flush(m, beaconOk) == Drain(m, beacons)
  {
    DrainImage(m, beacons);
    if |m.queue| == 0 {
      assert m.(queue := [], trace := m.trace + Pixels(m.queue)) == m;
    }
  }

  /**
    A batch whose request fails is put back in front of the queue, so if the
    queue only grew at its tail in the meantime, the records are back in their
    original order, followed by the newer ones, and all of them are persisted.
   */
  lemma BatchFailureRestoresOrder(m: Monitor, extra: seq<ErrorData>)
    requires m.live > 0 && |m.queue| > 0 && m.config.reportUrl != "" && m.store.Entries?
    ensures var f := TimerFire(m, true).m;
            var later := f.(queue := f.queue + extra);
            var c := Complete(later, |f.inFlight| - 1, false);
            && c.exit == Normal
            && c.m.queue == m.queue + extra
            && c.m.store == Entries(m.store.records + m.queue + extra)
            && c.m.inFlight == m.inFlight
  {
    var f := TimerFire(m, true).m;
    var batch := f.inFlight[|m.inFlight|];
    assert batch + f.queue == m.queue;
    assert batch + (f.queue + extra) == m.queue + extra;
    assert f.inFlight[..|m.inFlight|] == m.inFlight;
  }

  /**
    Two batches in flight that fail in the order they were sent come back in
    the opposite order: the later batch ends up ahead of the earlier one.
   */
  lemma TwoFailedBatchesSwap(m: Monitor)
    requires |m.inFlight| == 2
    ensures var first := Complete(m, 0, false).m;
            && |first.inFlight| == 1
            && Complete(first, 0, false).m.queue == m.inFlight[1] + m.inFlight[0] + m.queue
  {
  }
}

=== FILE: scenarios.dfy ===
/**
  End-to-end consequences of the transitions: deduplication across captures,
  image reporting over a whole session, the offline batch window, and the
  persistence-only mode.
 */
module Scenarios {
  import opened Types
  import opened Configuration
  import opened Fingerprints
  import opened ErrorMonitor
  import opened Reporting
  import opened Session

  /**
    With dedupe on, a second capture that agrees with the first on message,
    stack, line, column and file leaves the queue, the store and the reports as
    they were, even if the two differ in type, tag, url, timestamp or replay.
   */
  lemma RepeatedErrorIsDropped(m: Monitor, d1: ErrorData, d2: ErrorData, t1: int, t2: int,
                               b1: seq<bool>, b2: seq<bool>)
    requires m.config.dedupe && SameCore(d1, d2)
    ensures var first := Capture(m, d1, t1, b1).m;
            var second := Capture(first, d2, t2, b2).m;
            && second.queue == first.queue
            && second.store == first.store
            && second.trace == first.trace
            && second.cache == first.cache
  {
    FingerprintIdentifiesCore(d1, d2);
  }

  /** With the image method, a capture reports the whole queue, the new record last, as pixels. */
  lemma CaptureImage(m: Monitor, data: ErrorData, now: int, beacons: seq<bool>)
    requires m.config.reportMethod == Some(Image) && m.config.canReport && !Duplicate(m, data)
    ensures var r := Capture(m, data, now, beacons);
            && r.exit == Normal
            && r.m.queue == []
            && r.m.trace == m.trace + Pixels(m.queue + [Prepare(m.config, m.screen, data, now)])
            && r.m.store == m.store
  {
    var a := Admit(m, data, now);
    DrainImage(a.m, beacons);
  }

  /** An event that captures a record: a listener's error or a manual report. */
  predicate IsCapture(ev: Event) {
    ev.ErrorCaptured? || ev.ManualReported?
  }

  /** A session made of captures only. */
  predicate OnlyCaptures(events: seq<Event>) {
    forall i :: 0 <= i < |events| ==> IsCapture(events[i])
  }

  /**
    With the image method and reporting on, a session of captures that starts
    with an empty queue issues exactly one pixel per accepted record, in
    capture order, and ends with an empty queue.
   */
  lemma {:induction false} ImageSessionReportsEachRecordOnce(m: Monitor, events: seq<Event>)
    requires m.config.reportMethod == Some(Image) && m.config.canReport && m.queue == []
    requires OnlyCaptures(events)
    ensures var o := Run(m, events);
            && !o.hung
            && o.m.queue == []
            && o.m.trace == m.trace + Pixels(o.accepted)
            && o.m.store == m.store
    decreases |events|
  {
    if |events| > 0 {
      var a := ImageCaptureStep(m, events[0]);
      OnlyCapturesTail(events);
      ImageSessionReportsEachRecordOnce(a.step.m, events[1..]);
      var rest := Run(a.step.m, events[1..]);
      RunStep(m, events);
      PixelsThenPixels(m.trace, a.step.m.trace, rest.m.trace, a.accepted, rest.accepted);
    } else {
      assert m.trace + Pixels([]) == m.trace;
    }
  }

  lemma PixelsThenPixels(t0: seq<Report>, t1: seq<Report>, t2: seq<Report>, a: seq<ErrorData>, b: seq<ErrorData>)
    requires t1 == t0 + Pixels(a) && t2 == t1 + Pixels(b)
    ensures t2 == t0 + Pixels(a + b)
  {
    PixelsAppend(a, b);
    assert t2 == t0 + (Pixels(a) + Pixels(b));
  }

  lemma OnlyCapturesTail(events: seq<Event>)
    requires |events| > 0 && OnlyCaptures(events)
    ensures IsCapture(events[0]) && OnlyCaptures(events[1..])
  {
    forall i | 0 <= i < |events[1..]|
      ensures IsCapture(events[1..][i])
    {
      assert events[1..][i] == events[i + 1];
    }
  }

  /** One capture with the image method from an empty queue: exactly the accepted record is sent. */
  lemma ImageCaptureStep(m: Monitor, ev: Event) returns (a: Applied)
    requires m.config.reportMethod == Some(Image) && m.config.canReport && m.queue == []
    requires IsCapture(ev)
    ensures Enabled(m, ev) && a == Apply(m, ev)
    ensures a.step.exit == Normal && a.step.m.config == m.config
    ensures a.step.m.queue == [] && a.step.m.store == m.store
    ensures a.step.m.trace == m.trace + Pixels(a.accepted)
  {
    a := Apply(m, ev);
    var data := if ev.ErrorCaptured? then ev.data else ManualRecord(ev.message, ev.stack, ev.componentStack, ev.now);
    assert a.step == Capture(m, data, ev.now, ev.beacons);
    assert a.accepted == AcceptedOf(Admit(m, data, ev.now));
    var admitted := Admit(m, data, ev.now);
    if admitted.accepted.Some? {
      CaptureImage(m, data, ev.now, ev.beacons);
      assert m.queue + a.accepted == a.accepted;
    } else {
      assert m.trace + Pixels(a.accepted) == m.trace;
    }
  }

  /**
    Batch method while offline: a capture schedules the timeout; when it fires
    the whole queue, new record included, is appended to the store and also
    stays queued, and the timer is cleared for the next capture.
   */
  lemma OfflineWindowPersistsBacklog(m: Monitor, data: ErrorData, now: int, beacons: seq<bool>)
    requires Valid(m) && !m.timer
    requires m.config.reportMethod == Some(Request) && m.config.canReport && m.config.reportUrl != ""
    requires m.store.Entries? && !Duplicate(m, data)
    ensures var captured := Capture(m, data, now, beacons).m;
            && captured.live == 1
            && var fired := TimerFire(captured, false);
               var rec := Prepare(m.config, m.screen, data, now);
               && fired.exit == Normal
               && !fired.m.timer && fired.m.live == 0
               && fired.m.queue == m.queue + [rec]
               && fired.m.store == Entries(m.store.records + m.queue + [rec])
               && fired.m.trace == m.trace
  {
  }

  /**
    With reporting off, every accepted capture appends the whole queue to the
    store, so records already stored are stored again: two captures on an
    empty queue leave the first record in the store twice.
   */
  lemma PersistenceOnlyStoresQueueAgain(m: Monitor, d1: ErrorData, d2: ErrorData, t1: int, t2: int,
                                          b1: seq<bool>, b2: seq<bool>)
    requires !m.config.canReport && m.store.Entries? && m.queue == []
    requires !Duplicate(m, d1) && !Duplicate(m, d2) && CreateHash(d1) != CreateHash(d2)
    ensures var first := Capture(m, d1, t1, b1).m;
            var second := Capture(first, d2, t2, b2).m;
            var r1 := Prepare(m.config, m.screen, d1, t1);
            var r2 := Prepare(first.config, first.screen, d2, t2);
            && second.queue == [r1, r2]
            && second.store == Entries(m.store.records + [r1] + [r1, r2])
  {
    var first := Capture(m, d1, t1, b1).m;
    assert !Duplicate(first, d2);
  }

  /**
    A reload recovers what was persisted: a monitor constructed over the slot a
    save wrote starts with the previously stored records followed by the saved
    queue, and the slot is emptied.
   */
  lemma ReloadRecoversSaved(m: Monitor, options: Options)
    requires m.store.Entries?
    ensures SaveQueue(m).exit == Normal
    ensures var reloaded := Create(options, SaveQueue(m).m.store);
            reloaded.queue == m.store.records + m.queue && reloaded.store == Cleared
  {
  }

  /**
    The timer field stuck: when the timeout fires offline and saving throws,
    the field stays set with no timeout pending.
   */
  lemma ThrowingTimeoutLeavesTimerSet(m: Monitor)
    requires m.live == 1 && m.timer && |m.queue| > 0 && m.config.reportUrl != "" && m.store.Malformed?
    ensures var f := TimerFire(m, false);
            f.exit == Thrown && f.m.timer && f.m.live == 0
  {
  }

  /** From a stuck timer, no event schedules a timeout again. */
  lemma StuckTimerStaysStuck(m: Monitor, ev: Event)
    requires m.timer && m.live == 0 && Enabled(m, ev)
    ensures var r := Apply(m, ev).step.m;
            r.timer && r.live == 0 && |r.inFlight| <= |m.inFlight|
  {
    match ev
    case ErrorCaptured(data, now, beacons) =>
      CaptureKeepsStuckTimer(m, data, now, beacons);
    case ManualReported(message, stack, componentStack, now, beacons) =>
      CaptureKeepsStuckTimer(m, ManualRecord(message, stack, componentStack, now), now, beacons);
    case _ =>
  }

  lemma CaptureKeepsStuckTimer(m: Monitor, data: ErrorData, now: int, beacons: seq<bool>)
    requires m.timer && m.live == 0
    ensures var r := Capture(m, data, now, beacons).m;
            r.timer && r.live == 0 && r.inFlight == m.inFlight
  {
    var a := Admit(m, data, now);
    if a.accepted.Some? && m.config.canReport {
      var r := ProcessQueue(a.m, beacons);
      if m.config.reportMethod != Some(Request) && m.config.reportMethod.Some? {
        assert r == Drain(a.m, beacons);
      }
    }
  }

  /**
    Once stuck, the timer stays stuck for the rest of the session: no timeout
    ever fires again, so no batch is ever posted again and the requests in
    flight only settle.
   */
  lemma {:induction false} StuckTimerNeverRearms(m: Monitor, events: seq<Event>)
    requires m.timer && m.live == 0
    ensures var o := Run(m, events);
            o.m.timer && o.m.live == 0 && |o.m.inFlight| <= |m.inFlight|
    decreases |events|
  {
    if |events| > 0 {
      if !Enabled(m, events[0]) {
        StuckTimerNeverRearms(m, events[1..]);
      } else {
        var a := Apply(m, events[0]);
        StuckTimerStaysStuck(m, events[0]);
        if a.step.exit != Spinning {
          StuckTimerNeverRearms(a.step.m, events[1..]);
        }
      }
    }
  }

  /**
    Resource-load errors carry no stack, line, column or file, and in a browser
    their event has no message either, so all of them share one fingerprint:
    with dedupe on, once one resource error was captured, a later one changes
    nothing, whatever happened in between.
   */
  lemma LaterResourceErrorsAreDropped(m: Monitor, d1: ErrorData, d2: ErrorData, t1: int, t2: int,
                                      b1: seq<bool>, b2: seq<bool>, events: seq<Event>)
    requires m.config.dedupe
    requires d1.kind == Resource && d2.kind == Resource && d1.message == d2.message
    requires d1.stack.None? && d1.lineno.None? && d1.colno.None? && d1.filename.None?
    requires d2.stack.None? && d2.lineno.None? && d2.colno.None? && d2.filename.None?
    ensures var mid := Run(Capture(m, d1, t1, b1).m, events).m;
            var later := Capture(mid, d2, t2, b2).m;
            && later.queue == mid.queue
            && later.store == mid.store
            && later.trace == mid.trace
  {
    FingerprintIdentifiesCore(d1, d2);
    var first := Capture(m, d1, t1, b1).m;
    assert CreateHash(d1) in first.cache;
    var mid := Run(first, events).m;
    assert Duplicate(mid, d2);
  }
}

=== FILE: screen_buffer.dfy ===
/**
  The bounded buffer of recorder events: every emitted event is pushed at the
  tail, and once the buffer holds more than `Capacity` events the oldest one is
  shifted out.
 */
module ScreenBuffer {
  import opened Types

  /** The buffer keeps at most this many events (about thirty seconds of recording). */
  const Capacity: nat := 200

  /** The last `n` elements of `s`, or all of `s` when it is shorter. */
  function Newest<T>(s: seq<T>, n: nat): (r: seq<T>)
    ensures |r| <= n && |r| <= |s|
    ensures |s| <= n ==> r == s
    ensures |s| >= n ==> |r| == n
    ensures forall i :: 0 <= i < |r| ==> r[i] == s[|s| - |r| + i]
  {
    if |s| <= n then s else s[|s| - n..]
  }

  /** The recorder's emit callback. */
  function Push(buf: seq<ScreenEvent>, e: ScreenEvent): (r: seq<ScreenEvent>)
    ensures |buf| <= Capacity ==> |r| <= Capacity
    ensures |r| > 0 && r[|r| - 1] == e
    ensures |buf| < Capacity ==> r == buf + [e]
    ensures |buf| == Capacity ==> r == buf[1..] + [e]
    ensures |buf| <= Capacity ==> r == Newest(buf + [e], Capacity)
  {
    var b := buf + [e];
    if |b| > Capacity then b[1..] else b
  }

  /** The buffer after emitting every event of `es` in order. */
  function PushAll(buf: seq<ScreenEvent>, es: seq<ScreenEvent>): (r: seq<ScreenEvent>)
    decreases |es|
  {
    if |es| == 0 then buf else PushAll(Push(buf, es[0]), es[1..])
  }

  /** Truncating before one more append does not change the newest `n` events. */
  lemma NewestOfNewest<T>(s: seq<T>, e: T, n: nat)
    requires n > 0
    ensures Newest(Newest(s, n) + [e], n) == Newest(s + [e], n)
  {
    if |s| >= n {
      var k := |s| - n;
      assert Newest(s, n) == s[k..];
      assert Newest(s[k..] + [e], n) == (s[k..] + [e])[1..];
      assert (s[k..] + [e])[1..] == s[k + 1..] + [e];
      assert Newest(s + [e], n) == (s + [e])[k + 1..];
      assert (s + [e])[k + 1..] == s[k + 1..] + [e];
    }
  }

  /**
    Whatever was emitted, the buffer holds exactly the newest `Capacity` events
    of everything it has seen, oldest first: overflow drops only the oldest.
   */
  lemma {:induction false} PushAllKeepsNewest(buf: seq<ScreenEvent>, es: seq<ScreenEvent>)
    requires |buf| <= Capacity
    ensures PushAll(buf, es) == Newest(buf + es, Capacity)
    ensures |PushAll(buf, es)| <= Capacity
    decreases |es|
  {
    if |es| == 0 {
      assert buf + es == buf;
    } else {
      var e, later := es[0], es[1..];
      var next := Push(buf, e);
      assert next == Newest(buf + [e], Capacity);
      assert PushAll(buf, es) == PushAll(next, later);
      PushAllKeepsNewest(next, later);
      // Pushing the remaining events on `next` is the same as pushing them on the whole history.
      NewestAppendAll(buf + [e], later, Capacity);
      AppendHeadThenTail(buf, es);
    }
  }

  lemma AppendHeadThenTail<T>(a: seq<T>, s: seq<T>)
    requires |s| > 0
    ensures (a + [s[0]]) + s[1..] == a + s
  {
    assert s == [s[0]] + s[1..];
  }

  /** Truncating the history first does not change the newest `n` events after more are appended. */
  lemma {:induction false} NewestAppendAll<T>(s: seq<T>, rest: seq<T>, n: nat)
    requires n > 0
    ensures Newest(Newest(s, n) + rest, n) == Newest(s + rest, n)
    decreases |rest|
  {
    if |rest| == 0 {
      assert Newest(s, n) + rest == Newest(s, n);
      assert s + rest == s;
    } else {
      var init := rest[..|rest| - 1];
      var last := rest[|rest| - 1];
      assert rest == init + [last];
      NewestAppendAll(s, init, n);
      assert Newest(s, n) + rest == (Newest(s, n) + init) + [last];
      assert s + rest == (s + init) + [last];
      NewestOfNewest(Newest(s, n) + init, last, n);
      NewestOfNewest(s + init, last, n);
    }
  }
}

=== FILE: session.dfy ===
/**
  A page session: the events the browser can deliver to the monitor, one after
  another on the single JavaScript thread, and what holds across any sequence of them.
 */
module Session {
  import opened Types
  import opened Configuration
  import opened Fingerprints
  import ScreenBuffer
  import opened ErrorMonitor

  /** One event reaching the monitor. */
  datatype Event =
    | RecorderEmitted(e: ScreenEvent)
    | ErrorCaptured(data: ErrorData, now: int, beacons: seq<bool>)
    | ManualReported(message: string, stack: Option<string>, componentStack: Option<string>, now: int,
                     beacons: seq<bool>)
    | TimerFired(online: bool)
    | BatchSettled(index: nat, ok: bool)
    | PageHidden(beaconOk: bool)

  /**
    Whether the event can happen now: the recorder runs only with screen
    recording on, a timeout fires only if one is scheduled, and a request
    settles only if it is in flight.
   */
  predicate Enabled(m: Monitor, ev: Event) {
    match ev
    case RecorderEmitted(_) => m.config.recordScreen
    case TimerFired(_) => m.live > 0
    case BatchSettled(i, _) => i < |m.inFlight|
    case _ => true
  }

  /** The result of one event, with the record it appended to the queue if any. */
  datatype Applied = Applied(step: Step, accepted: seq<ErrorData>)

  function AcceptedOf(a: Admission): (s: seq<ErrorData>)
    ensures |s| <= 1 && (|s| == 0 <==> a.accepted.None?)
  {
    if a.accepted.Some? then [a.accepted.value] else []
  }

  /** One event. */
  function Apply(m: Monitor, ev: Event): (a: Applied)
    requires Enabled(m, ev)
    ensures a.step.m.config == m.config
    ensures |a.accepted| <= 1
    ensures |a.accepted| == 0 ==> a.step.m.cache == m.cache
    ensures |a.accepted| == 1 ==> a.step.m.cache == m.cache + {CreateHash(a.accepted[0])}
    ensures |a.accepted| == 1 && m.config.dedupe ==> CreateHash(a.accepted[0]) !in m.cache
  {
    match ev
    case RecorderEmitted(e) => Applied(Step(Emit(m, e), Normal), [])
    case ErrorCaptured(data, now, beacons) =>
      Applied(Capture(m, data, now, beacons), AcceptedOf(Admit(m, data, now)))
    case ManualReported(message, stack, componentStack, now, beacons) =>
      var data := ManualRecord(message, stack, componentStack, now);
      Applied(ManualReport(m, message, stack, componentStack, now, beacons), AcceptedOf(Admit(m, data, now)))
    case TimerFired(online) => Applied(TimerFire(m, online), [])
    case BatchSettled(i, ok) => Applied(Complete(m, i, ok), [])
    case PageHidden(beaconOk) => Applied(Flush(m, beaconOk), [])
  }

  /** Every record of `s` has its fingerprint in `cache`. */
  predicate AllCached(s: seq<ErrorData>, cache: set<Fingerprint>) {
    forall i :: 0 <= i < |s| ==> CreateHash(s[i]) in cache
  }

  /** No record of `s` has its fingerprint in `cache`. */
  predicate NoneCached(s: seq<ErrorData>, cache: set<Fingerprint>) {
    forall i :: 0 <= i < |s| ==> CreateHash(s[i]) !in cache
  }

  /**
    The end of a session: the final state, every record appended to the queue
    by a capture, in order, and whether the thread is stuck in the
    immediate-report loop (in which case no later event was handled).
   */
  datatype Outcome = Outcome(m: Monitor, accepted: seq<ErrorData>, hung: bool)

  /**
    Deliver `events` in order; an event that cannot happen in the current state
    is skipped. The cache only grows and holds every accepted fingerprint; with
    dedupe on, no accepted record repeats a fingerprint cached before the session.
   */
  function Run(m: Monitor, events: seq<Event>): (o: Outcome)
    ensures o.m.config == m.config
    ensures m.cache <= o.m.cache
    ensures AllCached(o.accepted, o.m.cache)
    ensures m.config.dedupe ==> NoneCached(o.accepted, m.cache)
    decreases |events|
  {
    if |events| == 0 then Outcome(m, [], false)
    else if !Enabled(m, events[0]) then Run(m, events[1..])
    else
      var a := Apply(m, events[0]);
      if a.step.exit == Spinning then Outcome(a.step.m, a.accepted, true)
      else
        var rest := Run(a.step.m, events[1..]);
        CachedConcat(a.accepted, rest.accepted, a.step.m.cache, rest.m.cache);
        UncachedConcat(m.config.dedupe, a.accepted, rest.accepted, m.cache, a.step.m.cache);
        Outcome(rest.m, a.accepted + rest.accepted, rest.hung)
  }

  lemma CachedConcat(a: seq<ErrorData>, b: seq<ErrorData>, c1: set<Fingerprint>, c2: set<Fingerprint>)
    requires AllCached(a, c1) && c1 <= c2 && AllCached(b, c2)
    ensures AllCached(a + b, c2)
  {
    forall i | 0 <= i < |a + b|
      ensures CreateHash((a + b)[i]) in c2
    {
      if i < |a| {
        assert (a + b)[i] == a[i];
      } else {
        assert (a + b)[i] == b[i - |a|];
      }
    }
  }

  lemma UncachedConcat(dedupe: bool, a: seq<ErrorData>, b: seq<ErrorData>, c0: set<Fingerprint>, c1: set<Fingerprint>)
    requires dedupe ==> NoneCached(a, c0) && c0 <= c1 && NoneCached(b, c1)
    ensures dedupe ==> NoneCached(a + b, c0)
  {
    forall i | dedupe && 0 <= i < |a + b|
      ensures CreateHash((a + b)[i]) !in c0
    {
      if i < |a| {
        assert (a + b)[i] == a[i];
      } else {
        assert (a + b)[i] == b[i - |a|];
      }
    }
  }

  /** No two records of `s` share a fingerprint. */
  predicate DistinctFingerprints(s: seq<ErrorData>) {
    forall i, j :: 0 <= i < j < |s| ==> CreateHash(s[i]) != CreateHash(s[j])
  }

  /** With dedupe on, no two records accepted during a session share a fingerprint. */
  lemma {:induction false} RunAcceptsDistinctFingerprints(m: Monitor, events: seq<Event>)
    requires m.config.dedupe
    ensures DistinctFingerprints(Run(m, events).accepted)
    decreases |events|
  {
    if |events| > 0 {
      if !Enabled(m, events[0]) {
        assert Run(m, events) == Run(m, events[1..]);
        RunAcceptsDistinctFingerprints(m, events[1..]);
      } else {
        var a := Apply(m, events[0]);
        if a.step.exit != Spinning {
          var rest := Run(a.step.m, events[1..]);
          RunAcceptsDistinctFingerprints(a.step.m, events[1..]);
          assert Run(m, events).accepted == a.accepted + rest.accepted;
          assert AllCached(a.accepted, a.step.m.cache);
          DistinctConcat(a.accepted, rest.accepted, a.step.m.cache);
        }
      }
    }
  }

  /**
    Records whose fingerprints are all in `cache`, followed by records whose
    fingerprints are all outside it, cannot share a fingerprint across the two parts.
   */
  lemma DistinctConcat(a: seq<ErrorData>, b: seq<ErrorData>, cache: set<Fingerprint>)
    requires DistinctFingerprints(a) && DistinctFingerprints(b)
    requires AllCached(a, cache) && NoneCached(b, cache)
    ensures DistinctFingerprints(a + b)
  {
    var n := |a|;
    forall i, j | 0 <= i < j < |a + b|
      ensures CreateHash((a + b)[i]) != CreateHash((a + b)[j])
    {
      if j < n {
        assert (a + b)[i] == a[i] && (a + b)[j] == a[j];
      } else if i < n {
        assert (a + b)[i] == a[i] && (a + b)[j] == b[j - n];
      } else {
        assert (a + b)[i] == b[i - n] && (a + b)[j] == b[j - n];
      }
    }
  }

  /** One handled event followed by the rest of the session. */
  lemma RunStep(m: Monitor, events: seq<Event>)
    requires |events| > 0 && Enabled(m, events[0]) && Apply(m, events[0]).step.exit != Spinning
    ensures var a := Apply(m, events[0]);
            var rest := Run(a.step.m, events[1..]);
            Run(m, events) == Outcome(rest.m, a.accepted + rest.accepted, rest.hung)
  {
  }

  /**
    What every reachable state satisfies: the screen buffer is bounded and
    empty without recording, at most one timeout is pending and the timer
    field is set whenever one is (it can also be set with none pending), timers and requests exist only for the batch method
    with reporting on, and every request in flight carries 1 to `BatchSize` records.
   */
  predicate Valid(m: Monitor) {
    && |m.screen| <= ScreenBuffer.Capacity
    && (!m.config.recordScreen ==> m.screen == [])
    && m.live <= 1
    && (m.live == 1 ==> m.timer)
    && (m.timer || |m.inFlight| > 0 ==> m.config.reportMethod == Some(Request) && m.config.canReport)
    && (forall i :: 0 <= i < |m.inFlight| ==> 0 < |m.inFlight[i]| <= BatchSize)
  }

  /** A freshly constructed monitor is valid, whatever the slot held. */
  lemma CreateValid(options: Options, stored: Store)
    ensures Valid(Create(options, stored))
  {
  }

  /** Every event keeps the state valid. */
  lemma ApplyPreservesValid(m: Monitor, ev: Event)
    requires Valid(m) && Enabled(m, ev)
    ensures Valid(Apply(m, ev).step.m)
  {
    match ev
    case TimerFired(online) => TimerFireKeepsValid(m, online);
    case BatchSettled(k, ok) => CompleteKeepsValid(m, k, ok);
    case ErrorCaptured(data, now, beacons) =>
      CaptureKeepsTimers(m, data, now, beacons);
    case ManualReported(message, stack, componentStack, now, beacons) =>
      CaptureKeepsTimers(m, ManualRecord(message, stack, componentStack, now), now, beacons);
    case _ =>
  }

  /** A fired timeout leaves nothing pending and sends at most one well-sized batch. */
  lemma TimerFireKeepsValid(m: Monitor, online: bool)
    requires Valid(m) && m.live > 0
    ensures Valid(TimerFire(m, online).m)
  {
    var r := TimerFire(m, online);
    if |m.queue| > 0 && m.config.reportUrl != "" && online {
      forall i | 0 <= i < |r.m.inFlight|
        ensures 0 < |r.m.inFlight[i]| <= BatchSize
      {
        if i < |m.inFlight| {
          assert r.m.inFlight[i] == r.m.inFlight[..|m.inFlight|][i];
        }
      }
    }
  }

  /** A settled request only removes a batch from those in flight. */
  lemma CompleteKeepsValid(m: Monitor, k: nat, ok: bool)
    requires Valid(m) && k < |m.inFlight|
    ensures Valid(Complete(m, k, ok).m)
  {
    var r := Complete(m, k, ok);
    forall i | 0 <= i < |r.m.inFlight|
      ensures 0 < |r.m.inFlight[i]| <= BatchSize
    {
      if i < k {
        assert r.m.inFlight[i] == m.inFlight[i];
      } else {
        assert r.m.inFlight[i] == m.inFlight[i + 1];
      }
    }
  }

  /** A capture schedules a timeout only for the batch method, and only when none is set. */
  lemma CaptureKeepsTimers(m: Monitor, data: ErrorData, now: int, beacons: seq<bool>)
    requires Valid(m)
    ensures Valid(Capture(m, data, now, beacons).m)
  {
    var a := Admit(m, data, now);
    if a.accepted.Some? && m.config.canReport {
      var r := ProcessQueue(a.m, beacons);
      if m.config.reportMethod != Some(Request) && m.config.reportMethod.Some? {
        assert r == Drain(a.m, beacons);
      }
    }
  }

  /** Every session keeps the state valid. */
  lemma {:induction false} RunPreservesValid(m: Monitor, events: seq<Event>)
    requires Valid(m)
    ensures Valid(Run(m, events).m)
    decreases |events|
  {
    if |events| > 0 {
      if !Enabled(m, events[0]) {
        RunPreservesValid(m, events[1..]);
      } else {
        var a := Apply(m, events[0]);
        ApplyPreservesValid(m, events[0]);
        if a.step.exit != Spinning {
          RunPreservesValid(a.step.m, events[1..]);
        }
      }
    }
  }
}

=== FILE: types.dfy ===
/**
  The shapes the error monitor works on: the error record, the report methods,
  the outgoing reports it emits and the persisted store.
 */
module Types {

  /** An optional value: a field that may be undefined. */
  datatype Option<+T> = None | Some(value: T) {

    /** The value, or `default` when absent (the `??` operator). */
    function GetOr(default: T): (v: T)
      ensures this.Some? ==> v == this.value
      ensures this.None? ==> v == default
    {
      match this
      case Some(v) => v
      case None => default
    }
  }

  /** Where an error came from. */
  datatype ErrorType = Js | Promise | Resource | React

  /** How queued records leave the page. */
  datatype ReportMethod = Request | Image | Navigator | Custom

  /** One opaque event of the screen recorder, represented by its serialized text. */
  type ScreenEvent = string

  /** One captured fault plus its context. Every optional field of the record is an `Option`. */
  datatype ErrorData = ErrorData(
    kind: ErrorType,
    message: string,
    stack: Option<string>,
    componentStack: Option<string>,
    filename: Option<string>,
    lineno: Option<int>,
    colno: Option<int>,
    tag: Option<string>,
    url: Option<string>,
    timestamp: Option<int>,
    screenData: Option<seq<ScreenEvent>>)

  /** One outgoing report, in the order the monitor issues them. */
  datatype Report =
    | Post(batch: seq<ErrorData>)                      // one batched network request
    | Pixel(record: ErrorData)                         // one image-pixel GET
    | Beacon(payload: seq<ErrorData>, accepted: bool)  // one sendBeacon call and its result
    | CustomCall(payload: seq<ErrorData>)              // one call of the user's reporter

  /**
    The durable slot under the key "errorQueue": either a JSON array of records
    (an absent key reads as the empty array) or text that does not parse as one.
   */
  datatype Store = Entries(records: seq<ErrorData>) | Malformed

  /** The store after `removeItem`. */
  const Cleared: Store := Entries([])
}
